=== FILE: README.md ===
# Japanese learning front end: client-side logic in Dafny

This project models the client-side logic of a React front end for Japanese
study material. Remote data (the grammar collection, the kanji collection and
today's exam) enters the model as input sequences and records. Four
components hold logic worth stating precisely:

- **The stand-alone grammar list** (`GrammarListView`, `grammar_list.dfy`).
  It fetches the grammar collection once and stores it newest first. It
  renders a window of the first 10 items. Each time the sentinel element
  below the list scrolls into view, the window grows by one page of 10. When
  every item is shown, the sentinel shows an end message. The class
  `GrammarList` has the component's four state fields. React's effects and
  the intersection-observer callback are explicit methods. A method that
  changes a value an effect depends on runs that effect before it returns,
  in declaration order.
- **The context-fed grammar list and the search guard**
  (`GrammarComponents`, `grammar_components.dfy`). The grammar list reads
  the collection and the busy flag from the shared context. One effect
  resets the window when the collection changes, one appends the chunk of
  the current page, and the observer callback advances the page. The page
  counter is never reset. `HandleSearch` is the blank-input guard of the
  search box, with JavaScript's `trim` modelled exactly.
- **Today's exam** (`TodayExam`, `today_exam.dfy`). Answers are a map from
  question id to option id, and there is a submitted flag. The score counts
  the questions whose selection is truthy and equals the id of the first
  option marked correct. Each submitted question shows a verdict.
- **The kanji gallery** (`KanjiCards`, `kanji_cards.dfy`). Choosing a JLPT
  level rebuilds the shown list from the full collection. The result is
  either the whole collection or the kanji whose tag `N${JLPT}` equals the
  selected value.

`Paging` (`paging.dfy`) holds what both grammar lists share. It defines the
page size, `Array.prototype.slice` for non-negative bounds, the window of a
page, the chunk one page adds, and list reversal. Its central lemma is
`WindowStep`: the window of page p followed by the chunk of page p+1 is the
window of page p+1. The stand-alone list's class invariant (`Valid`) is that
the displayed items are exactly the window of the current page.

## Model

| member | source | states |
|---|---|---|
| Paging.JsSlice | src/components/GrammarList.jsx:40-42 | a slice is never longer than the list; with both bounds clamped to the length, it is the segment between them, and it is empty when the end does not exceed the start or the start is at or past the end |
| Paging.Window | src/components/GrammarList.jsx:27 | the window of page p is a prefix of the collection, of length min(10p, n) |
| Paging.Chunk | src/components/GrammarList.jsx:40-42 | the chunk of page p holds at most 10 items: the items from position 10(p-1) up to 10p, cut at the end of the collection; it is empty for a page starting at or past the end |
| Paging.FirstPageIsWindow | src/components/GrammarList.jsx:27 | `slice(0, pageSize)` is the page-1 window, of length min(10, n) |
| Paging.WindowStep | src/components/GrammarList.jsx:38-43 | appending the chunk of page p+1 to the window of page p gives exactly the window of page p+1 |
| Paging.WindowMonotone | src/components/GrammarList.jsx:38-43 | for p <= q, the window of page p is a prefix of the window of page q and no longer |
| Paging.WindowSaturates | src/components/GrammarList.jsx:53 | once a window covers the whole collection, every later page's window is the whole collection |
| Paging.ChunkPastEnd | src/components/GrammarList.jsx:40-42 | the chunk of a page starting at or past the end of the collection is empty |
| Paging.Reverse | src/components/GrammarList.jsx:24 | the reversed list has the same length, and item i is item n-1-i of the fetched data |
| Paging.ReverseInvolutive | src/components/GrammarList.jsx:24 | reversing twice gives back the fetched data |
| GrammarListView.GrammarList.constructor | src/components/GrammarList.jsx:6-9 | the initial state has empty lists, page 1 and loading false, and satisfies the window invariant |
| GrammarListView.GrammarList.OnMount | src/components/GrammarList.jsx:16 | the fetch effect raises the loading flag and keeps the invariant |
| GrammarListView.GrammarList.OnFetched | src/components/GrammarList.jsx:21-27 | the collection becomes the data reversed; the window becomes its first page plus whatever the re-run append effect adds; loading drops; from the mount state, the invariant holds and min(10, n) items are shown |
| GrammarListView.GrammarList.OnFetchFailed | src/components/GrammarList.jsx:28-31 | on a failed fetch, the collection and the window are unchanged (empty at mount), loading drops, and the invariant holds |
| GrammarListView.GrammarList.OnPageChanged | src/components/GrammarList.jsx:38-44 | past page 1 with a non-empty collection, the chunk of the current page is appended and earlier items are kept; otherwise nothing changes |
| GrammarListView.GrammarList.OnSentinelVisible | src/components/GrammarList.jsx:47-56 | the page advances, by exactly one, iff the sentinel intersects, nothing is loading and the window is shorter than the collection; the window is then the window of the new page, so the invariant is kept; otherwise nothing changes, in particular once every item is shown |
| GrammarListView.GrammarList.Sentinel | src/components/GrammarList.jsx:83 | a spinner exactly while loading; under the invariant, the end message exactly when not loading and every fetched item is displayed, and "load more" only while a further page exists |
| GrammarListView.ScrollTwentyFive | src/components/GrammarList.jsx:24-55 | for 25 fetched items the window lengths are 10, 20, 25; the final window is the whole reversed list; a fourth sentinel event does not advance |
| GrammarComponents.GrammarList.constructor | src/components/GrammarComponents.jsx:53-71 | mounting starts at page 1 with the first page of the context's collection (empty for an empty collection) |
| GrammarComponents.GrammarList.OnLoadingChanged | src/components/GrammarComponents.jsx:52 | a change of the context's busy flag changes only that flag and keeps the window consistent |
| GrammarComponents.GrammarList.OnGrammarChanged | src/components/GrammarComponents.jsx:59-71 | as written, a new collection leaves the page unchanged; the window becomes the reset first page plus the chunk of the kept page; an empty collection leaves the window unchanged; for a non-empty collection, the window is consistent when the page is 1 or 2 or the collection fits in one page |
| GrammarComponents.GrammarList.OnGrammarReplaced | src/components/GrammarComponents.jsx:59-63 | intended behaviour: a new collection resets the page to 1 and the window to its first page, so the window is always consistent |
| GrammarComponents.GrammarList.OnPageChanged | src/components/GrammarComponents.jsx:65-71 | past page 1 with a non-empty collection, the current page's chunk is appended; otherwise nothing changes |
| GrammarComponents.Rederived | src/components/GrammarComponents.jsx:59-71 | for an empty new collection the old window stays; for a non-empty one the window starts with its first page and is at most one page longer than the kept page's window; at page 1 it is exactly the first page |
| GrammarComponents.GrammarList.OnSentinelVisible | src/components/GrammarComponents.jsx:73-82 | the page advances, by exactly one, iff the sentinel intersects, nothing is loading and the window is shorter than the collection; the new page's chunk is then appended; a consistent window stays consistent |
| GrammarComponents.GrammarList.Sentinel | src/components/GrammarComponents.jsx:108-114 | a spinner exactly while loading; when not loading, "load more" iff the window is shorter than the collection; with a consistent window, the end message means every item is shown |
| GrammarComponents.RederivedIsWindow | src/components/GrammarComponents.jsx:59-71 | for a non-empty new collection, the re-derived window equals the window of the kept page iff the page is at most 2 or the collection has at most 10 items |
| GrammarComponents.ReloadAtPageThreeLeavesGap | src/components/GrammarComponents.jsx:55-71 | a 30-item collection arriving at page 3 shows items 0-9 and 20-29, and every later chunk is empty, so items 10-19 are never shown |
| GrammarComponents.EmptiedCollectionKeepsWindow | src/components/GrammarComponents.jsx:60-62 | an emptied collection leaves the previous window as it was |
| GrammarComponents.TrimStart | src/components/GrammarComponents.jsx:126 | the result is a suffix of the input; what it drops is all whitespace; it does not start with whitespace |
| GrammarComponents.TrimEnd | src/components/GrammarComponents.jsx:126 | the result is a prefix of the input; what it drops is all whitespace; it does not end with whitespace |
| GrammarComponents.Trim | src/components/GrammarComponents.jsx:126 | `trim` never lengthens its input; the result is the run of characters of the input starting where the leading whitespace ends, and everything after that run is whitespace; a non-empty result starts and ends with a non-whitespace character; a string already starting and ending with one is returned unchanged |
| GrammarComponents.TrimEmptyIffBlank | src/components/GrammarComponents.jsx:126 | `trim` yields the empty string exactly when every character is ECMAScript whitespace or a line terminator |
| GrammarComponents.HandleSearch | src/components/GrammarComponents.jsx:125-131 | a warning and no search exactly for an empty or whitespace-only concept; any other concept is searched untrimmed, and it contains a non-whitespace character |
| TodayExam.FirstCorrectIndex | src/components/TodayExam.jsx:54 | the position of the first option marked correct: no earlier option is marked, and the length is returned when none is marked |
| TodayExam.FindCorrect | src/components/TodayExam.jsx:54 | `find` returns nothing iff no option is marked correct; otherwise it returns the first option that is |
| TodayExam.Truthy | src/components/TodayExam.jsx:55 | an option id is truthy exactly when it is neither the number 0 nor the empty string |
| TodayExam.IsScored | src/components/TodayExam.jsx:53-55 | a question scores exactly when its id has a recorded answer, that answer is truthy, some option is marked correct, and the answer equals the first such option's id |
| TodayExam.Count | src/components/TodayExam.jsx:52-56 | a filter's length is at most the list's length, and is 0 when no item passes |
| TodayExam.CountIsCardinality | src/components/TodayExam.jsx:52-56 | a filter's length equals the number of positions whose item passes the test |
| TodayExam.CorrectCount | src/components/TodayExam.jsx:52-56 | the score is at most the number of questions, and is 0 when no question has a recorded answer |
| TodayExam.CorrectCountIsScoredQuestions | src/components/TodayExam.jsx:52-56 | the score is the number of questions whose selection is truthy and equals the first correct option's id; it is at most the question count; every scoring question has a recorded answer and a correct option |
| TodayExam.UnansweredScoresZero | src/components/TodayExam.jsx:53-55 | with no recorded answers, the score is 0 |
| TodayExam.AnswerAffectsOnlyItsQuestion | src/components/TodayExam.jsx:30-32 | recording an answer for one question id changes no other question's scoring, whatever the other ids are |
| TodayExam.AnswerMovesScoreByAtMostOne | src/components/TodayExam.jsx:30-32 | with distinct question ids, recording one answer moves the score up or down by at most one |
| TodayExam.VerdictOf | src/components/TodayExam.jsx:128-136 | rendering throws iff no option is marked correct; the verdict is Correct iff the selection equals the first correct option's id |
| TodayExam.VerdictAgreesWithScore | src/components/TodayExam.jsx:128-136 | for a missing or truthy selection, a question shows Correct iff it counts towards the score |
| TodayExam.FalsyCorrectIdIsNotScored | src/components/TodayExam.jsx:55 | a correct option with id 0 that is selected shows Correct, yet the score as written is 0 and the intended score is 1 |
| TodayExam.CorrectedCountCountsCorrectVerdicts | src/components/TodayExam.jsx:128-136 | the intended score equals the number of questions whose verdict is Correct |
| TodayExam.ScoresAgreeOnTruthyIds | src/components/TodayExam.jsx:52-56 | when every correct option has a truthy id, the score as written equals the intended score |
| TodayExam.TodayExamView.constructor | src/components/TodayExam.jsx:8-11 | the initial state has no exam, loading true, no answers, and is not submitted |
| TodayExam.TodayExamView.OnFetched | src/components/TodayExam.jsx:19-24 | a fetched exam is stored and loading ends |
| TodayExam.TodayExamView.OnFetchFailed | src/components/TodayExam.jsx:21-24 | when the fetch throws, the exam stays absent and loading ends |
| TodayExam.TodayExamView.HandleAnswer | src/components/TodayExam.jsx:30-32 | the answer for the question id becomes the option id; every other entry is unchanged and no key is added or lost |
| TodayExam.TodayExamView.OnRadioChange | src/components/TodayExam.jsx:114-117 | the radio group is disabled after submission, so answers change only before it |
| TodayExam.TodayExamView.HandleSubmit | src/components/TodayExam.jsx:34-37 | with no exam nothing happens; otherwise the exam becomes submitted; submitting again changes nothing |
| TodayExam.TodayExamView.Score | src/components/TodayExam.jsx:39-56 | a score exists exactly once loading is over and an exam is present; it lies between 0 and the question count and counts the scoring questions |
| TodayExam.TodayExamView.Feedback | src/components/TodayExam.jsx:128-141 | a verdict is shown exactly after submission; it is Correct iff the question is answered with the first correct option's id |
| KanjiCards.Digits | src/components/KanjiCards.jsx:35 | the decimal rendering of a natural number is a non-empty digit string that spells the number back, with two or more digits exactly from 10 on |
| KanjiCards.DigitsInjective | src/components/KanjiCards.jsx:35 | different natural numbers render to different digit strings |
| KanjiCards.Decimal | src/components/KanjiCards.jsx:35 | a template literal renders an integer as a non-empty string that starts with `-` exactly for negative numbers and is otherwise all digits; the digits after any sign spell the absolute value |
| KanjiCards.DecimalInjective | src/components/KanjiCards.jsx:35 | different integers render differently in a template literal |
| KanjiCards.LevelTag | src/components/KanjiCards.jsx:35 | a kanji's tag starts with `N`, has at least two characters, and never equals "all" |
| KanjiCards.LevelTagSelectsLevel | src/components/KanjiCards.jsx:35 | a kanji's tag equals `N` followed by m exactly when its JLPT level is m |
| KanjiCards.FilterLevel | src/components/KanjiCards.jsx:35 | the filtered list is a subsequence of the collection; every kanji carrying the selected tag occurs in it exactly as often as in the collection, and no other kanji occurs in it |
| KanjiCards.LevelFilter | src/components/KanjiCards.jsx:32-36 | "all" gives the whole collection; any selection gives a subsequence of the collection |
| KanjiCards.SelectingLevelKeepsThatLevel | src/components/KanjiCards.jsx:35 | selecting `N` followed by m keeps exactly the kanji of level m, each as often as in the collection, in their original order |
| KanjiCards.SelectorOptionsKeepTheirLevels | src/components/KanjiCards.jsx:57-59 | the selector's "N5" option keeps exactly the level-5 kanji and its "N4" option exactly the level-4 kanji, every occurrence, in order |
| KanjiCards.FilterIdempotent | src/components/KanjiCards.jsx:35 | applying the same selection to its own result changes nothing |
| KanjiCards.CompoundedLevelsAreEmpty | src/components/KanjiCards.jsx:30-36 | filtering one level's result by a different level would leave nothing, which is why each selection starts from the full collection |
| KanjiCards.KanjiCardsView.constructor | src/components/KanjiCards.jsx:9-12 | the initial state has empty lists, loading true and level "all" |
| KanjiCards.KanjiCardsView.OnFetched | src/components/KanjiCards.jsx:19-23 | on success, both lists equal the data and loading ends |
| KanjiCards.KanjiCardsView.OnFetchFailed | src/components/KanjiCards.jsx:24-27 | on failure, the lists are unchanged (empty) and loading ends |
| KanjiCards.KanjiCardsView.HandleFilterChange | src/components/KanjiCards.jsx:30-37 | the level records the last selected value; the shown list is the selection applied to the full collection, independent of any earlier selection, and stays a subsequence of it |

## Left out

- src/context/GlobalContext.jsx is not part of this model. It covers the concurrent bulk fetches, the shared busy flag, toasts, and responses that arrive after a newer request. The context-fed list takes the collection and the busy flag as inputs (`OnGrammarChanged`, `OnLoadingChanged`).
- src/components/GrammarSearch.jsx, src/components/GrammarCard.jsx, src/components/Home.jsx and src/App.jsx are not part of this model. They are a fetch wrapper, presentational markup and routing.
- The network, JSON parsing and the HTTP status are not modelled. Each fetch result is a method parameter: a success carries the data, and a failure is a separate method. A response body of the wrong shape is not modelled.
- IntersectionObserver mechanics are not modelled: the threshold, observe and unobserve, and the callback firing on subscription. React's effect scheduling and update batching are abstracted too. Each sentinel event sees the current state, so two callbacks firing before a re-render are not modelled.
- The score percentage (`Math.round` of a floating-point division), date formatting, antd widgets and console or message side effects are left out. The search warning is modelled as the `Warned` outcome.
- Record fields that no logic reads (meanings, readings, examples, explanations and similar) are not modelled.
- KanjiCards.Kanji: JLPT is an integer; a missing or non-integer JLPT value, which a template literal would render as text, is not modelled.
- TodayExam.Question: question ids are integers. Object keys stringify them, which keeps distinct integers distinct. Mixed number and string question ids are not modelled.
- GrammarListView.GrammarList.OnFetched: re-establishes the window invariant only from the mount state (empty collection, page 1). The fetch effect runs once, on mount, so no later fetch occurs in the component.
- TodayExam.VerdictOf: a question with no correct option makes rendering throw. This is modelled as the `Throws` verdict, not as the uncaught render error it raises.

## Findings

| source | as written | input that shows it | evidently intended | confidence | as-written member | corrected member |
|---|---|---|---|---|---|---|
| src/components/GrammarComponents.jsx:55-71 | when the collection changes, the page counter is kept, and the reset effect and the append effect give the first page plus the chunk of the old page number | page 3, then a new collection of 30 items: items 0-9 and 20-29 are shown, items 10-19 never are, and the sentinel keeps asking for more | a replaced collection restarts at page 1 with its first page as the window | medium (not executed; the context fills the collection once, so only a later replacement triggers it) | GrammarComponents.ReloadAtPageThreeLeavesGap | GrammarComponents.GrammarList.OnGrammarReplaced |
| src/components/TodayExam.jsx:55 | the score requires the selected option id to be truthy | a question whose correct option has id 0, with that option selected: the verdict shows Correct, but the score adds nothing | the score counts every question whose selection equals the correct option's id, matching the Correct verdicts | low (not executed; depends on the backend ever using id 0) | TodayExam.FalsyCorrectIdIsNotScored | TodayExam.CorrectedCountCountsCorrectVerdicts |

=== FILE: grammar_components.dfy ===
/**
 * The context-fed grammar views (src/components/GrammarComponents.jsx).
 *
 * GrammarList paginates over the grammar collection held by the shared
 * context: an effect keyed on the collection overwrites the window with its
 * first page, an effect keyed on the page and the collection appends the
 * current page's chunk, and the observer callback advances the page. Unlike
 * the stand-alone list, the collection here can change after mount, and the
 * page counter is never reset when it does.
 *
 * GrammarSearch.handleSearch refuses a blank concept before asking the
 * context to search.
 */
module GrammarComponents {
  import opened Paging

  /** What the sentinel element below the list shows. */
  datatype SentinelText = Spinner | LoadMore | ReachedEnd

  /**
   * The window after both effects keyed on the collection have run on a new
   * collection `g`, in declaration order: the reset effect overwrites the
   * window with the first page when `g` is non-empty (and leaves it alone
   * otherwise), then the append effect adds the chunk of the unchanged page.
   */
  function Rederived<T>(displayed: seq<T>, g: seq<T>, page: nat): (r: seq<T>)
    ensures |g| == 0 ==> r == displayed
    ensures |g| > 0 ==> Window(g, 1) <= r && |r| <= Min(page * PageSize, |g|) + PageSize
    ensures |g| > 0 && page <= 1 ==> r == Window(g, 1)
  {
    var reset := if |g| > 0 then JsSlice(g, 0, PageSize) else displayed;
    if page > 1 && |g| > 0 then reset + Chunk(g, page) else reset
  }

  class GrammarList<T> {
    /** The collection read from the shared context. */
    var grammar: seq<T>
    /** The shared busy flag read from the context. */
    var loading: bool
    var displayed: seq<T>
    var page: nat

    /** The rendered items are the window of the current page of the current collection. */
    ghost predicate Consistent()
      reads this
    {
      page >= 1 && displayed == Window(grammar, page)
    }

    /**
     * Mounting with the context's current collection: page 1, and the effects
     * run once, so the window is the first page of `g` (empty when `g` is).
     */
    constructor (g: seq<T>, busy: bool)
      ensures grammar == g && loading == busy && page == 1
      ensures displayed == Window(g, 1)
      ensures Consistent()
    {
      grammar, loading, displayed, page := g, busy, [], 1;
      if |g| > 0 {
        displayed := JsSlice(g, 0, PageSize);
      }
      FirstPageIsWindow(g);
    }

    /** The context's busy flag changed; only the observer is re-subscribed. */
    method OnLoadingChanged(busy: bool)
      modifies this`loading
      ensures loading == busy
      ensures old(Consistent()) ==> Consistent()
    {
      loading := busy;
    }

    /**
     * The context supplied a new collection `g`: the reset effect, then the
     * append effect, run as written. The page is kept, so the window is the
     * first page of `g` plus the chunk of the old page number; for an empty
     * `g` the old window stays on screen.
     */
    method OnGrammarChanged(g: seq<T>)
      requires page >= 1
      modifies this`grammar, this`displayed
      ensures grammar == g && page == old(page)
      ensures displayed == Rederived(old(displayed), g, page)
      ensures |g| > 0 && (page <= 2 || |g| <= PageSize) ==> Consistent()
      ensures |g| == 0 ==> displayed == old(displayed)
    {
      grammar := g;
      if |grammar| > 0 {
        displayed := JsSlice(grammar, 0, PageSize);
      }
      OnPageChanged();
      if |g| > 0 && (page <= 2 || |g| <= PageSize) {
        RederivedIsWindow(old(displayed), g, page);
      }
    }

    /**
     * The intended behaviour on a new collection: back to page 1 with the
     * first page of `g` as the window, whatever the old page and window.
     */
    method OnGrammarReplaced(g: seq<T>)
      modifies this`grammar, this`displayed, this`page
      ensures grammar == g && page == 1
      ensures displayed == Window(g, 1)
      ensures Consistent()
    {
      grammar := g;
      page := 1;
      displayed := JsSlice(grammar, 0, PageSize);
      FirstPageIsWindow(grammar);
      OnPageChanged();
    }

    /** The append effect: past page 1, with a non-empty collection, append the page's chunk. */
    method OnPageChanged()
      modifies this`displayed
      ensures displayed == old(displayed) +
        (if page > 1 && |grammar| > 0 then Chunk(grammar, page) else [])
    {
      if page > 1 && |grammar| > 0 {
        var start := (page - 1) * PageSize;
        var end := start + PageSize;
        displayed := displayed + JsSlice(grammar, start, end);
      }
    }

    /**
     * The observer callback: the page advances by exactly one, and the append
     * effect runs, only when the sentinel intersects, nothing is loading and
     * the window is shorter than the collection.
     */
    method OnSentinelVisible(isIntersecting: bool) returns (advanced: bool)
      requires page >= 1
      modifies this`page, this`displayed
      ensures advanced <==> isIntersecting && !loading && |old(displayed)| < |grammar|
      ensures page == old(page) + (if advanced then 1 else 0)
      ensures displayed == old(displayed) + (if advanced then Chunk(grammar, page) else [])
      ensures old(Consistent()) ==> Consistent()
    {
      advanced := isIntersecting && !loading && |displayed| < |grammar|;
      if advanced {
        if displayed == Window(grammar, page) {
          WindowStep(grammar, page);
        }
        page := page + 1;
        OnPageChanged();
      }
    }

    /**
     * When nothing is loading, the sentinel invites more scrolling exactly
     * while the window is shorter than the collection; with a consistent
     * window, the end message means every item is shown.
     */
    function Sentinel(): (r: SentinelText)
      reads this
      ensures r == Spinner <==> loading
      ensures !loading ==> (r == LoadMore <==> |displayed| < |grammar|)
      ensures Consistent() ==> (r == ReachedEnd <==> !loading && displayed == grammar)
    {
      if loading then Spinner
      else if |displayed| < |grammar| then LoadMore
      else ReachedEnd
    }
  }

  /**
   * A new non-empty collection yields the window of the kept page exactly
   * when that page is 1 or 2, or the collection fits in one page.
   */
  lemma RederivedIsWindow<T>(displayed: seq<T>, g: seq<T>, page: nat)
    requires |g| > 0 && page >= 1
    ensures Rederived(displayed, g, page) == Window(g, page) <==> page <= 2 || |g| <= PageSize
  {
    FirstPageIsWindow(g);
    if page == 2 {
      WindowStep(g, 1);
    } else if page > 2 && |g| <= PageSize {
      ChunkPastEnd(g, page);
    } else if page > 2 {
      var c := Chunk(g, page);
      assert |c| == Min(page * PageSize, |g|) - Min((page - 1) * PageSize, |g|);
      assert |Rederived(displayed, g, page)| != |Window(g, page)|;
    }
  }

  /**
   * The page is not reset: a thirty-item collection arriving at page 3 shows
   * items 0-9 and 20-29, drops items 10-19, and every later page adds
   * nothing, so those items are never shown while the sentinel keeps asking
   * for more.
   */
  lemma ReloadAtPageThreeLeavesGap<T>(displayed: seq<T>, g: seq<T>)
    requires |g| == 30
    ensures Rederived(displayed, g, 3) == g[..10] + g[20..30]
    ensures |Rederived(displayed, g, 3)| < |g|
    ensures Rederived(displayed, g, 3) != Window(g, 3)
    ensures forall p :: p >= 4 ==> Chunk(g, p) == []
  {
    RederivedIsWindow(displayed, g, 3);
  }

  /** An emptied collection leaves the previous window on screen beside the end message. */
  lemma EmptiedCollectionKeepsWindow<T>(displayed: seq<T>, page: nat)
    ensures Rederived(displayed, [], page) == displayed
  {
  }

  // ---------------------------------------------------------------------------
  // GrammarSearch.handleSearch

  /** ECMAScript WhiteSpace and LineTerminator code points, which `trim` strips. */
  predicate IsJsWhitespace(c: char)
  {
    || c == '\t' || c == '\n' || c == '\U{000B}' || c == '\U{000C}' || c == '\r'
    || c == ' ' || c == '\U{00A0}' || c == '\U{1680}'
    || ('\U{2000}' <= c <= '\U{200A}')
    || c == '\U{2028}' || c == '\U{2029}' || c == '\U{202F}' || c == '\U{205F}'
    || c == '\U{3000}' || c == '\U{FEFF}'
  }

  /** A concept is blank when every character of it is whitespace (the empty one included). */
  predicate IsBlank(s: string)
  {
    forall i :: 0 <= i < |s| ==> IsJsWhitespace(s[i])
  }

  /** Leading whitespace removed. */
  function TrimStart(s: string): (r: string)
    ensures |r| <= |s| && r == s[|s| - |r|..]
    ensures IsBlank(s[..|s| - |r|])
    ensures r == [] || !IsJsWhitespace(r[0])
  {
    if s != [] && IsJsWhitespace(s[0]) then
      var r := TrimStart(s[1..]);
      DropFirstBlank(s, r);
      r
    else s
  }

  /** A leading whitespace character joins the blank prefix that trimming the rest drops. */
  lemma DropFirstBlank(s: string, r: string)
    requires s != [] && IsJsWhitespace(s[0])
    requires |r| <= |s| - 1 && r == s[1..][|s| - 1 - |r|..]
    requires IsBlank(s[1..][..|s| - 1 - |r|])
    ensures r == s[|s| - |r|..]
    ensures IsBlank(s[..|s| - |r|])
  {
    assert s[..|s| - |r|] == [s[0]] + s[1..][..|s| - 1 - |r|];
  }

  /** Trailing whitespace removed. */
  function TrimEnd(s: string): (r: string)
    ensures |r| <= |s| && r == s[..|r|]
    ensures IsBlank(s[|r|..])
    ensures r == [] || !IsJsWhitespace(r[|r| - 1])
  {
    if s != [] && IsJsWhitespace(s[|s| - 1]) then
      var r := TrimEnd(s[..|s| - 1]);
      DropLastBlank(s, r);
      r
    else s
  }

  /**
   * Trimming the end after the start keeps the characters of `s` that begin
   * where the leading whitespace ends.
   */
  lemma TrimSegment(s: string)
    ensures var t := TrimStart(s); var r := TrimEnd(t);
      && |r| <= |t| <= |s|
      && forall i :: 0 <= i < |r| ==> r[i] == s[|s| - |t| + i]
  {
    var t := TrimStart(s);
    var r := TrimEnd(t);
    assert t == s[|s| - |t|..] && r == t[..|r|];
  }

  /** Everything after the segment that trimming keeps is whitespace. */
  lemma TrimTailBlank(s: string)
    ensures var t := TrimStart(s); var r := TrimEnd(t);
      && |r| <= |t| <= |s|
      && IsBlank(s[|s| - |t| + |r|..])
  {
    var t := TrimStart(s);
    TailOfSuffix(s, t, |TrimEnd(t)|);
  }

  /** What follows the first `k` items of a suffix `t` of `s` is what follows them in `s`. */
  lemma TailOfSuffix(s: string, t: string, k: nat)
    requires |t| <= |s| && t == s[|s| - |t|..]
    requires k <= |t|
    ensures t[k..] == s[|s| - |t| + k..]
  {
  }

  /** A string that already starts and ends with non-whitespace is left as it is. */
  lemma TrimKeepsTrimmed(s: string)
    ensures s != [] && !IsJsWhitespace(s[0]) && !IsJsWhitespace(s[|s| - 1]) ==> TrimEnd(TrimStart(s)) == s
  {
    if s != [] && !IsJsWhitespace(s[0]) {
      assert TrimStart(s) == s;
    }
  }

  /** A trailing whitespace character joins the blank suffix that trimming the rest drops. */
  lemma DropLastBlank(s: string, r: string)
    requires s != [] && IsJsWhitespace(s[|s| - 1])
    requires |r| <= |s| - 1 && r == s[..|s| - 1][..|r|]
    requires IsBlank(s[..|s| - 1][|r|..])
    ensures r == s[..|r|]
    ensures IsBlank(s[|r|..])
  {
    assert s[|r|..] == s[..|s| - 1][|r|..] + [s[|s| - 1]];
  }

  /** `String.prototype.trim`. */
  function Trim(s: string): (r: string)
    ensures |r| <= |s|
    ensures r == [] || (!IsJsWhitespace(r[0]) && !IsJsWhitespace(r[|r| - 1]))
    ensures s != [] && !IsJsWhitespace(s[0]) && !IsJsWhitespace(s[|s| - 1]) ==> r == s
    ensures |r| <= |TrimStart(s)| && forall i :: 0 <= i < |r| ==> r[i] == s[|s| - |TrimStart(s)| + i]
    ensures forall i :: |s| - |TrimStart(s)| + |r| <= i < |s| ==> IsJsWhitespace(s[i])
  {
    TrimSegment(s);
    TrimTailBlank(s);
    TrimKeepsTrimmed(s);
    TrimEnd(TrimStart(s))
  }

  /** `trim` yields the empty string exactly for blank strings. */
  lemma TrimEmptyIffBlank(s: string)
    ensures Trim(s) == "" <==> IsBlank(s)
  {
    var t := TrimStart(s);
    if t != [] {
      assert !IsJsWhitespace(t[0]);
      assert s[|s| - |t|] == t[0];
      var e := TrimEnd(t);
      assert IsBlank(t[|e|..]);
    } else {
      assert s[..|s| - |t|] == s;
    }
  }

  /** What pressing Search does: a warning, or a search for the concept as typed. */
  datatype SearchOutcome = Warned | Searched(concept: string)

  /**
   * handleSearch: a blank concept only raises a warning and issues no search;
   * any other concept is searched for as typed, without trimming.
   */
  function HandleSearch(concept: string): (r: SearchOutcome)
    ensures r == Warned <==> IsBlank(concept)
    ensures r.Searched? ==> r.concept == concept
    ensures r.Searched? ==> exists i :: 0 <= i < |concept| && !IsJsWhitespace(concept[i])
  {
    TrimEmptyIffBlank(concept);
    if Trim(concept) == "" then Warned else Searched(concept)
  }
}

=== FILE: grammar_list.dfy ===
/**
 * The stand-alone grammar list with infinite scroll (src/components/GrammarList.jsx).
 * The component fetches the whole grammar collection once, keeps it newest
 * first, shows a window of it that grows by one page whenever the sentinel
 * below the list scrolls into view, and shows a terminal message at the end.
 *
 * React's effects are explicit method calls here: OnMount and OnFetched /
 * OnFetchFailed are the fetch effect, OnPageChanged the page-append effect,
 * OnSentinelVisible the intersection-observer callback. A method that changes
 * a value an effect depends on runs that effect before it returns.
 */
module GrammarListView {
  import opened Paging

  /** What the sentinel element below the list shows. */
  datatype SentinelText = Spinner | LoadMore | NoMore

  class GrammarList<T> {
    /** The full fetched collection, newest first. */
    var allGrammars: seq<T>
    /** The items currently rendered. */
    var displayed: seq<T>
    var page: nat
    var loading: bool

    /**
     * The window invariant: the rendered items are the window of the current
     * page, and the page never runs past the collection (page 1 always exists).
     */
    ghost predicate Valid()
      reads this
    {
      && page >= 1
      && displayed == Window(allGrammars, page)
      && (page == 1 || (page - 1) * PageSize < |allGrammars|)
    }

    /** The initial state: nothing fetched, page 1, not loading. */
    constructor ()
      ensures Valid()
      ensures allGrammars == [] && displayed == [] && page == 1 && !loading
    {
      allGrammars, displayed, page, loading := [], [], 1, false;
    }

    /** The fetch effect starts: the loading flag goes up. */
    method OnMount()
      requires Valid()
      modifies this`loading
      ensures Valid() && loading
    {
      loading := true;
    }

    /**
     * The fetch succeeded with `data`: the collection becomes `data` reversed
     * and the window its first page; the loading flag drops. Because the
     * collection changed, the page-append effect runs again afterwards with
     * the page it finds. The fetch runs once, on mount, before any page can
     * be turned, so the invariant is re-established.
     */
    method OnFetched(data: seq<T>)
      requires Valid()
      modifies this`allGrammars, this`displayed, this`loading
      ensures allGrammars == Reverse(data)
      ensures displayed == Window(allGrammars, 1) +
        (if page > 1 && |allGrammars| > 0 then Chunk(allGrammars, page) else [])
      ensures !loading
      ensures old(allGrammars) == [] ==> Valid() && |displayed| == Min(PageSize, |data|)
    {
      allGrammars := Reverse(data);
      displayed := JsSlice(allGrammars, 0, PageSize);
      FirstPageIsWindow(allGrammars);
      loading := false;
      OnPageChanged();
    }

    /** The fetch threw: the collections are left as they were and loading drops. */
    method OnFetchFailed()
      requires Valid()
      modifies this`loading
      ensures Valid() && !loading
      ensures allGrammars == old(allGrammars) && displayed == old(displayed)
    {
      loading := false;
    }

    /**
     * The page-append effect: past page 1, and when there is a collection,
     * append the chunk of the current page to what is displayed.
     */
    method OnPageChanged()
      modifies this`displayed
      ensures displayed == old(displayed) +
        (if page > 1 && |allGrammars| > 0 then Chunk(allGrammars, page) else [])
    {
      if page > 1 && |allGrammars| > 0 {
        var start := (page - 1) * PageSize;
        var end := start + PageSize;
        displayed := displayed + JsSlice(allGrammars, start, end);
      }
    }

    /**
     * The observer callback: when the sentinel intersects, nothing is loading
     * and the window is shorter than the collection, the page advances by one
     * and the append effect adds that page's chunk. Otherwise nothing changes.
     */
    method OnSentinelVisible(isIntersecting: bool) returns (advanced: bool)
      requires Valid()
      modifies this`page, this`displayed
      ensures Valid()
      ensures advanced <==> isIntersecting && !loading && |old(displayed)| < |allGrammars|
      ensures page == old(page) + (if advanced then 1 else 0)
      ensures displayed == Window(allGrammars, page)
      ensures advanced ==> old(displayed) < displayed
      ensures !advanced ==> displayed == old(displayed)
    {
      advanced := isIntersecting && !loading && |displayed| < |allGrammars|;
      if advanced {
        WindowStep(allGrammars, page);
        page := page + 1;
        OnPageChanged();
      }
    }

    /**
     * The sentinel shows a spinner while loading; otherwise it invites more
     * scrolling exactly while some fetched item is not yet displayed.
     */
    function Sentinel(): (r: SentinelText)
      reads this
      ensures r == Spinner <==> loading
      ensures Valid() ==> (r == NoMore <==> !loading && displayed == allGrammars)
      ensures Valid() && r == LoadMore ==> page * PageSize < |allGrammars|
    {
      if loading then Spinner
      else if |displayed| < |allGrammars| then LoadMore
      else NoMore
    }
  }

  /**
   * Twenty-five fetched items, then the sentinel keeps scrolling into view:
   * the window holds 10, then 20, then 25 items, and the fourth event finds
   * the list exhausted and changes nothing.
   */
  method ScrollTwentyFive<T>(items: seq<T>) returns (lengths: seq<nat>, last: seq<T>, advancedAtEnd: bool)
    requires |items| == 25
    ensures lengths == [10, 20, 25]
    ensures last == Reverse(items)
    ensures !advancedAtEnd
  {
    var list := new GrammarList<T>();
    list.OnMount();
    list.OnFetched(items);
    lengths := [|list.displayed|];
    var a := list.OnSentinelVisible(true);
    lengths := lengths + [|list.displayed|];
    a := list.OnSentinelVisible(true);
    lengths := lengths + [|list.displayed|];
    advancedAtEnd := list.OnSentinelVisible(true);
    last := list.displayed;
  }
}

=== FILE: kanji_cards.dfy ===
/**
 * The kanji gallery (src/components/KanjiCards.jsx): the kanji collection
 * fetched once, and a JLPT level selector that rebuilds the shown list from
 * the full collection, either all of it or the kanji whose level tag
 * `N${JLPT}` equals the selected value.
 */
module KanjiCards {

  /** A kanji record; only the fields the view keys its cards on or filters on. */
  datatype Kanji = Kanji(id: int, jlpt: int)

  function DigitChar(d: nat): char
    requires d < 10
  {
    "0123456789"[d]
  }

  predicate IsDigitChar(c: char)
  {
    '0' <= c <= '9'
  }

  /** The number a string of decimal digits spells, most significant digit first. */
  function DigitsValue(s: string): int
  {
    if s == [] then 0 else DigitsValue(s[..|s| - 1]) * 10 + (s[|s| - 1] as int - '0' as int)
  }

  /** The decimal digits of a natural number, without leading zeros. */
  function Digits(n: nat): (r: string)
    ensures |r| >= 1
    ensures n >= 10 <==> |r| >= 2
    ensures forall i :: 0 <= i < |r| ==> IsDigitChar(r[i])
    ensures DigitsValue(r) == n
  {
    if n < 10 then [DigitChar(n)]
    else
      var r := Digits(n / 10) + [DigitChar(n % 10)];
      assert r[..|r| - 1] == Digits(n / 10);
      r
  }

  /** How a template literal renders an integer: a minus sign, then the digits. */
  function Decimal(n: int): (r: string)
    ensures |r| >= 1
    ensures r[0] == '-' <==> n < 0
    ensures forall i :: 0 <= i < |r| && (i > 0 || n >= 0) ==> IsDigitChar(r[i])
    ensures DigitsValue(if n < 0 then r[1..] else r) == if n < 0 then -n else n
  {
    if n < 0 then "-" + Digits(-n) else Digits(n)
  }

  /** Different naturals have different digit strings. */
  lemma {:induction false} DigitsInjective(a: nat, b: nat)
    requires Digits(a) == Digits(b)
    ensures a == b
  {
    var s := Digits(a);
    if a >= 10 && b >= 10 {
      assert s[..|s| - 1] == Digits(a / 10) && s[..|s| - 1] == Digits(b / 10);
      DigitsInjective(a / 10, b / 10);
      assert DigitChar(a % 10) == s[|s| - 1] == DigitChar(b % 10);
    } else if a < 10 && b < 10 {
      assert DigitChar(a) == s[0] == DigitChar(b);
    }
  }

  /** Different integers render differently. */
  lemma DecimalInjective(a: int, b: int)
    requires Decimal(a) == Decimal(b)
    ensures a == b
  {
    assert a < 0 <==> Decimal(a)[0] == '-';
    assert b < 0 <==> Decimal(b)[0] == '-';
    if a < 0 {
      assert Digits(-a) == Decimal(a)[1..] == Decimal(b)[1..] == Digits(-b);
      DigitsInjective(-a, -b);
    } else {
      DigitsInjective(a, b);
    }
  }

  /** The level tag a kanji is compared with: `N${k.JLPT}`. */
  function LevelTag(k: Kanji): (r: string)
    ensures |r| >= 2 && r[0] == 'N'
    ensures r != "all"
  {
    "N" + Decimal(k.jlpt)
  }

  /** The tag of level m selects exactly the kanji of level m. */
  lemma LevelTagSelectsLevel(k: Kanji, m: int)
    ensures LevelTag(k) == "N" + Decimal(m) <==> k.jlpt == m
  {
    if LevelTag(k) == "N" + Decimal(m) {
      assert Decimal(k.jlpt) == LevelTag(k)[1..] == ("N" + Decimal(m))[1..] == Decimal(m);
      DecimalInjective(k.jlpt, m);
    }
  }

  /** `a` can be obtained from `b` by deleting items: same items, same order. */
  predicate IsSubsequence<T(==)>(a: seq<T>, b: seq<T>)
  {
    a == [] || (b != [] && ((a[0] == b[0] && IsSubsequence(a[1..], b[1..])) || IsSubsequence(a, b[1..])))
  }

  /**
   * `xs.filter(p)`: the items that pass `p`, in their original order, each
   * as often as it occurs in `xs`.
   */
  function Filter<T(==,!new)>(xs: seq<T>, p: T -> bool): (r: seq<T>)
    ensures IsSubsequence(r, xs)
    ensures forall x :: multiset(r)[x] == if p(x) then multiset(xs)[x] else 0
  {
    if xs == [] then []
    else
      var rest := Filter(xs[1..], p);
      assert xs == [xs[0]] + xs[1..];
      assert multiset(xs) == multiset{xs[0]} + multiset(xs[1..]);
      if p(xs[0]) then
        var r := [xs[0]] + rest;
        assert r[0] == xs[0] && r[1..] == rest;
        assert multiset(r) == multiset{xs[0]} + multiset(rest);
        r
      else rest
  }

  /** A filter whose test every item passes keeps the whole list. */
  lemma {:induction false} FilterAllPass<T(!new)>(xs: seq<T>, p: T -> bool)
    requires forall i :: 0 <= i < |xs| ==> p(xs[i])
    ensures Filter(xs, p) == xs
  {
    if xs != [] {
      FilterAllPass(xs[1..], p);
    }
  }

  /** A filter whose test no item passes keeps nothing. */
  lemma {:induction false} FilterNonePass<T(!new)>(xs: seq<T>, p: T -> bool)
    requires forall i :: 0 <= i < |xs| ==> !p(xs[i])
    ensures Filter(xs, p) == []
  {
    if xs != [] {
      FilterNonePass(xs[1..], p);
    }
  }

  /** What the counts say about single items: everything kept passes, and every passing item is kept. */
  lemma FilterMembers<T(!new)>(xs: seq<T>, p: T -> bool)
    ensures forall i :: 0 <= i < |Filter(xs, p)| ==> p(Filter(xs, p)[i])
    ensures forall i :: 0 <= i < |xs| && p(xs[i]) ==> xs[i] in Filter(xs, p)
  {
    var r := Filter(xs, p);
    forall i | 0 <= i < |r| ensures p(r[i]) {
      assert multiset(r)[r[i]] > 0;
    }
    forall i | 0 <= i < |xs| && p(xs[i]) ensures xs[i] in r {
      assert multiset(xs)[xs[i]] > 0;
    }
  }

  /** The callback `(k) => \`N${k.JLPT}\` === value`. */
  function HasTag(value: string): Kanji -> bool
  {
    k => LevelTag(k) == value
  }

  /** `list.filter((k) => \`N${k.JLPT}\` === value)`. */
  function FilterLevel(list: seq<Kanji>, value: string): (r: seq<Kanji>)
    ensures IsSubsequence(r, list)
    ensures forall i :: 0 <= i < |r| ==> LevelTag(r[i]) == value
    ensures forall i :: 0 <= i < |list| && LevelTag(list[i]) == value ==> list[i] in r
    ensures forall x :: multiset(r)[x] == if LevelTag(x) == value then multiset(list)[x] else 0
  {
    FilterMembers(list, HasTag(value));
    Filter(list, HasTag(value))
  }

  /** The list handleFilterChange shows for a selected value. */
  function LevelFilter(list: seq<Kanji>, value: string): (r: seq<Kanji>)
    ensures value == "all" ==> r == list
    ensures IsSubsequence(r, list)
  {
    if value == "all" then SubsequenceReflexive(list); list else FilterLevel(list, value)
  }

  /**
   * Selecting level m (value `N${m}`) keeps every occurrence of every kanji
   * of level m and nothing else, in their original order.
   */
  lemma SelectingLevelKeepsThatLevel(list: seq<Kanji>, m: int)
    ensures var r := LevelFilter(list, "N" + Decimal(m));
      && IsSubsequence(r, list)
      && (forall k: Kanji :: multiset(r)[k] == if k.jlpt == m then multiset(list)[k] else 0)
      && (forall k: Kanji :: k in r <==> k in list && k.jlpt == m)
  {
    var value := "N" + Decimal(m);
    assert value != "all" by { assert value[0] == 'N'; }
    var r := FilterLevel(list, value);
    forall k: Kanji ensures multiset(r)[k] == (if k.jlpt == m then multiset(list)[k] else 0)
      && (k in r <==> k in list && k.jlpt == m)
    {
      LevelTagSelectsLevel(k, m);
    }
  }

  /**
   * The selector's two level options: "N5" keeps exactly the level-5 kanji
   * and "N4" exactly the level-4 kanji, every occurrence, in order.
   */
  lemma SelectorOptionsKeepTheirLevels(list: seq<Kanji>)
    ensures var r := LevelFilter(list, "N5");
      && IsSubsequence(r, list)
      && (forall k: Kanji :: multiset(r)[k] == if k.jlpt == 5 then multiset(list)[k] else 0)
    ensures var r := LevelFilter(list, "N4");
      && IsSubsequence(r, list)
      && (forall k: Kanji :: multiset(r)[k] == if k.jlpt == 4 then multiset(list)[k] else 0)
  {
    assert DigitChar(5) == '5' && DigitChar(4) == '4';
    assert "N" + Decimal(5) == "N5" && "N" + Decimal(4) == "N4";
    SelectingLevelKeepsThatLevel(list, 5);
    SelectingLevelKeepsThatLevel(list, 4);
  }

  /** A list whose every kanji carries the tag passes the filter unchanged. */
  lemma FilterKeepsAllMatching(list: seq<Kanji>, value: string)
    requires forall i :: 0 <= i < |list| ==> LevelTag(list[i]) == value
    ensures FilterLevel(list, value) == list
  {
    FilterAllPass(list, HasTag(value));
  }

  /** Applying the same selection to its own result changes nothing. */
  lemma FilterIdempotent(list: seq<Kanji>, value: string)
    ensures LevelFilter(LevelFilter(list, value), value) == LevelFilter(list, value)
  {
    if value != "all" {
      FilterKeepsAllMatching(FilterLevel(list, value), value);
    }
  }

  /**
   * Filtering the result of one level by a different level would leave
   * nothing; the view avoids this by always filtering the full collection.
   */
  lemma {:induction false} CompoundedLevelsAreEmpty(list: seq<Kanji>, a: string, b: string)
    requires a != b
    ensures FilterLevel(FilterLevel(list, a), b) == []
  {
    var r := FilterLevel(list, a);
    if r != [] {
      NoneMatchFilterEmpty(r, b);
    }
  }

  /** No kanji carries the tag: the filter is empty. */
  lemma NoneMatchFilterEmpty(list: seq<Kanji>, value: string)
    requires forall i :: 0 <= i < |list| ==> LevelTag(list[i]) != value
    ensures FilterLevel(list, value) == []
  {
    FilterNonePass(list, HasTag(value));
  }

  /** The gallery's state. */
  class KanjiCardsView {
    var kanjiList: seq<Kanji>
    var filteredList: seq<Kanji>
    var loading: bool
    var filterLevel: string

    /** The shown list is always drawn from the fetched collection, in its order. */
    ghost predicate Valid()
      reads this
    {
      IsSubsequence(filteredList, kanjiList)
    }

    /** The initial state: nothing fetched, loading, all levels selected. */
    constructor ()
      ensures Valid()
      ensures kanjiList == [] && filteredList == [] && loading && filterLevel == "all"
    {
      kanjiList, filteredList, loading, filterLevel := [], [], true, "all";
    }

    /** The fetch succeeded: both lists become the data and loading ends. */
    method OnFetched(data: seq<Kanji>)
      modifies this`kanjiList, this`filteredList, this`loading
      ensures Valid()
      ensures kanjiList == data && filteredList == data && !loading
    {
      kanjiList := data;
      filteredList := data;
      loading := false;
      SubsequenceReflexive(data);
    }

    /** The fetch failed: the lists stay as they were (empty) and loading ends. */
    method OnFetchFailed()
      requires Valid()
      modifies this`loading
      ensures Valid() && !loading
    {
      loading := false;
    }

    /**
     * handleFilterChange: record the value, then rebuild the shown list from
     * the full collection, so the previous selection has no effect.
     */
    method HandleFilterChange(value: string)
      modifies this`filterLevel, this`filteredList
      ensures Valid()
      ensures filterLevel == value
      ensures filteredList == LevelFilter(kanjiList, value)
    {
      filterLevel := value;
      if value == "all" {
        filteredList := kanjiList;
        SubsequenceReflexive(kanjiList);
      } else {
        filteredList := FilterLevel(kanjiList, value);
      }
    }
  }

  /** A list is a subsequence of itself. */
  lemma {:induction false} SubsequenceReflexive<T>(s: seq<T>)
    ensures IsSubsequence(s, s)
  {
    if s != [] {
      SubsequenceReflexive(s[1..]);
    }
  }
}

=== FILE: paging.dfy ===
/**
 * Client-side paging over a bulk collection, shared by both grammar list views:
 * the page size, JavaScript's `Array.prototype.slice` for non-negative bounds,
 * the display window of a page, the chunk one page adds, and the
 * newest-first reversal applied to the fetched grammar list.
 */
module Paging {

  /** Number of items one page adds to the display window. */
  const PageSize: nat := 10

  function Min(a: int, b: int): int
  {
    if a <= b then a else b
  }

  /**
   * `s.slice(start, end)` for non-negative bounds: both bounds are clamped to
   * the length, and an empty range gives the empty list.
   */
  function JsSlice<T>(s: seq<T>, start: nat, end: nat): (r: seq<T>)
    ensures |r| <= |s|
    ensures start <= end <= |s| ==> r == s[start..end]
    ensures |s| <= start ==> r == []
    ensures start <= end ==> r == s[Min(start, |s|)..Min(end, |s|)]
    ensures end <= start ==> r == []
  {
    var lo := Min(start, |s|);
    var hi := Min(end, |s|);
    if lo <= hi then s[lo..hi] else []
  }

  /** The window that pages 1..page show: the first min(page * PageSize, |s|) items. */
  function Window<T>(s: seq<T>, page: nat): (r: seq<T>)
    ensures |r| == Min(page * PageSize, |s|)
    ensures r <= s
  {
    s[..Min(page * PageSize, |s|)]
  }

  /** What the page-change effect appends for `page`: items (page-1)*10 up to page*10. */
  function Chunk<T>(s: seq<T>, page: nat): (r: seq<T>)
    requires page >= 1
    ensures |r| <= PageSize
    ensures r == s[Min((page - 1) * PageSize, |s|)..Min(page * PageSize, |s|)]
    ensures |s| <= (page - 1) * PageSize ==> r == []
  {
    JsSlice(s, (page - 1) * PageSize, (page - 1) * PageSize + PageSize)
  }

  /** The first page of the window is what `slice(0, pageSize)` yields. */
  lemma FirstPageIsWindow<T>(s: seq<T>)
    ensures JsSlice(s, 0, PageSize) == Window(s, 1)
    ensures |JsSlice(s, 0, PageSize)| == Min(PageSize, |s|)
  {
  }

  /**
   * Appending the chunk of the next page to the window of the current page
   * yields exactly the window of the next page.
   */
  lemma WindowStep<T>(s: seq<T>, page: nat)
    requires page >= 1
    ensures Window(s, page) + Chunk(s, page + 1) == Window(s, page + 1)
  {
    var k := Min(page * PageSize, |s|);
    var k' := Min((page + 1) * PageSize, |s|);
    assert Chunk(s, page + 1) == s[k..k'];
    assert s[..k] + s[k..k'] == s[..k'];
  }

  /** Windows only grow with the page number, and the smaller is a prefix of the larger. */
  lemma {:induction false} WindowMonotone<T>(s: seq<T>, p: nat, q: nat)
    requires p <= q
    ensures Window(s, p) <= Window(s, q)
    ensures |Window(s, p)| <= |Window(s, q)|
  {
    assert p * PageSize <= q * PageSize;
  }

  /** Once the window covers the whole collection, every later page shows the same window. */
  lemma WindowSaturates<T>(s: seq<T>, p: nat, q: nat)
    requires p <= q
    requires |Window(s, p)| == |s|
    ensures Window(s, q) == s
  {
    WindowMonotone(s, p, q);
  }

  /** Chunks of pages past the end of the collection are empty. */
  lemma ChunkPastEnd<T>(s: seq<T>, page: nat)
    requires page >= 1
    requires |s| <= (page - 1) * PageSize
    ensures Chunk(s, page) == []
  {
  }

  /** The list reversed: the last fetched item comes first. */
  function Reverse<T>(s: seq<T>): (r: seq<T>)
    ensures |r| == |s|
    ensures forall i :: 0 <= i < |s| ==> r[i] == s[|s| - 1 - i]
  {
    if s == [] then [] else [s[|s| - 1]] + Reverse(s[..|s| - 1])
  }

  /** Reversing twice gives the fetched list back. */
  lemma ReverseInvolutive<T>(s: seq<T>)
    ensures Reverse(Reverse(s)) == s
  {
    var r := Reverse(Reverse(s));
    assert |r| == |s|;
    forall i | 0 <= i < |s| ensures r[i] == s[i] {
      assert r[i] == Reverse(s)[|s| - 1 - i];
    }
  }
}

=== FILE: today_exam.dfy ===
/**
 * Today's exam (src/components/TodayExam.jsx): the exam fetched once, the
 * answers picked per question, the submit flag, the score shown after
 * submitting and the per-question verdict.
 *
 * Option ids are JSON scalars and the score tests them for JavaScript
 * truthiness, so they are modelled as numbers or strings. Question ids are
 * numbers; as object keys they are stringified, which keeps distinct numbers
 * distinct, so the answers object is a map keyed by the number.
 */
module TodayExam {

  datatype Option<T> = None | Some(value: T)

  /** A JSON scalar used as an id. */
  datatype Id = Num(n: int) | Text(s: string)

  /** JavaScript truthiness of an id: 0 and the empty string are falsy. */
  predicate Truthy(v: Id)
    ensures Truthy(v) <==> v != Num(0) && v != Text("")
  {
    match v
    case Num(n) => n != 0
    case Text(s) => s != ""
  }

  datatype Choice = Choice(optionId: Id, isCorrect: bool, optionText: string)
  datatype Question = Question(questionId: int, options: seq<Choice>)
  datatype Exam = Exam(questions: seq<Question>)

  /** The position of the first option marked correct, or the length when there is none. */
  function FirstCorrectIndex(options: seq<Choice>): (k: nat)
    ensures k <= |options|
    ensures k < |options| ==> options[k].isCorrect
    ensures forall j :: 0 <= j < k ==> !options[j].isCorrect
  {
    if options == [] || options[0].isCorrect then 0
    else 1 + FirstCorrectIndex(options[1..])
  }

  /** `options.find((o) => o.is_correct)`: the first option marked correct, if any. */
  function FindCorrect(options: seq<Choice>): (r: Option<Choice>)
    ensures r.None? <==> forall i :: 0 <= i < |options| ==> !options[i].isCorrect
    ensures r.Some? ==> r.value.isCorrect && r.value == options[FirstCorrectIndex(options)]
  {
    var k := FirstCorrectIndex(options);
    if k < |options| then Some(options[k]) else None
  }

  /** `answers[qid]`: the option id picked for a question, if any. */
  function Selected(q: Question, answers: map<int, Id>): Option<Id>
  {
    if q.questionId in answers then Some(answers[q.questionId]) else None
  }

  /**
   * The score's test, as written: a selection exists, is truthy, and equals
   * the id of the first correct option (a question without one never scores).
   */
  predicate IsScored(q: Question, answers: map<int, Id>)
    ensures IsScored(q, answers) <==> var k := FirstCorrectIndex(q.options);
      && q.questionId in answers && Truthy(answers[q.questionId])
      && k < |q.options| && answers[q.questionId] == q.options[k].optionId
  {
    var selected := Selected(q, answers);
    var correct := FindCorrect(q.options);
    selected.Some? && Truthy(selected.value) && correct.Some? && selected.value == correct.value.optionId
  }

  /** `xs.filter(p).length`. */
  function Count<T>(xs: seq<T>, p: T -> bool): (r: nat)
    ensures r <= |xs|
    ensures r == 0 <== (forall i :: 0 <= i < |xs| ==> !p(xs[i]))
  {
    if xs == [] then 0
    else Count(xs[..|xs| - 1], p) + (if p(xs[|xs| - 1]) then 1 else 0)
  }

  /** The positions whose item passes `p`. */
  function IndicesWhere<T>(xs: seq<T>, p: T -> bool): set<int>
  {
    set i | 0 <= i < |xs| && p(xs[i])
  }

  /** Counting a filter is the same as counting the positions that pass it. */
  lemma {:induction false} CountIsCardinality<T>(xs: seq<T>, p: T -> bool)
    ensures Count(xs, p) == |IndicesWhere(xs, p)|
  {
    if xs != [] {
      var init := xs[..|xs| - 1];
      CountIsCardinality(init, p);
      var last := if p(xs[|xs| - 1]) then {|xs| - 1} else {};
      assert IndicesWhere(xs, p) == IndicesWhere(init, p) + last;
      assert IndicesWhere(init, p) !! last;
    }
  }

  /** Two tests that agree on every item count the same. */
  lemma {:induction false} CountCongruent<T>(xs: seq<T>, p: T -> bool, q: T -> bool)
    requires forall i :: 0 <= i < |xs| ==> p(xs[i]) == q(xs[i])
    ensures Count(xs, p) == Count(xs, q)
  {
    if xs != [] {
      CountCongruent(xs[..|xs| - 1], p, q);
    }
  }

  /** `correctCount`: the number of questions the score test accepts. */
  function CorrectCount(questions: seq<Question>, answers: map<int, Id>): (r: nat)
    ensures r <= |questions|
    ensures (forall i :: 0 <= i < |questions| ==> questions[i].questionId !in answers) ==> r == 0
  {
    Count(questions, q => IsScored(q, answers))
  }

  /**
   * The score counts exactly the questions that have a truthy selection equal
   * to the first correct option's id, so it lies between 0 and the number of
   * questions, and an unanswered question or one without a correct option
   * never contributes.
   */
  lemma CorrectCountIsScoredQuestions(questions: seq<Question>, answers: map<int, Id>)
    ensures CorrectCount(questions, answers) == |set i | 0 <= i < |questions| && IsScored(questions[i], answers)|
    ensures CorrectCount(questions, answers) <= |questions|
    ensures forall i :: 0 <= i < |questions| && IsScored(questions[i], answers) ==>
      questions[i].questionId in answers && FindCorrect(questions[i].options).Some?
  {
    CountIsCardinality(questions, q => IsScored(q, answers));
    assert IndicesWhere(questions, q => IsScored(q, answers))
      == set i | 0 <= i < |questions| && IsScored(questions[i], answers);
  }

  /** With no answer recorded for any question, the score is 0. */
  lemma UnansweredScoresZero(questions: seq<Question>, answers: map<int, Id>)
    requires forall i :: 0 <= i < |questions| ==> questions[i].questionId !in answers
    ensures CorrectCount(questions, answers) == 0
  {
    assert forall i :: 0 <= i < |questions| ==> !IsScored(questions[i], answers);
  }

  /** Answering one question cannot change whether any question with another id scores. */
  lemma AnswerAffectsOnlyItsQuestion(answers: map<int, Id>, qid: int, opt: Id)
    ensures forall q: Question :: q.questionId != qid ==> (IsScored(q, answers[qid := opt]) <==> IsScored(q, answers))
  {
  }

  /** With distinct question ids, answering one question moves the score by at most one. */
  lemma {:induction false} AnswerMovesScoreByAtMostOne(questions: seq<Question>, answers: map<int, Id>, qid: int, opt: Id)
    requires forall i, j :: 0 <= i < j < |questions| ==> questions[i].questionId != questions[j].questionId
    ensures CorrectCount(questions, answers[qid := opt]) <= CorrectCount(questions, answers) + 1
    ensures CorrectCount(questions, answers) <= CorrectCount(questions, answers[qid := opt]) + 1
  {
    var a' := answers[qid := opt];
    if questions != [] {
      var init := questions[..|questions| - 1];
      AnswerMovesScoreByAtMostOne(init, answers, qid, opt);
      var last := questions[|questions| - 1];
      if last.questionId == qid {
        assert forall i :: 0 <= i < |init| ==> init[i].questionId != qid;
        AnswerAffectsOnlyItsQuestion(answers, qid, opt);
        CountCongruent(init, q => IsScored(q, a'), q => IsScored(q, answers));
      }
      assert questions[..|questions| - 1] == init;
    }
  }

  /** What a submitted question shows under it. */
  datatype Verdict =
    | Correct
    | Incorrect(correctText: string)
      /** `correctOption.option_id` on a question with no correct option throws while rendering. */
    | Throws

  /** The per-question verdict after submitting. */
  function VerdictOf(q: Question, answers: map<int, Id>): (r: Verdict)
    ensures r == Throws <==> FindCorrect(q.options).None?
    ensures r == Correct <==> var k := FirstCorrectIndex(q.options);
      k < |q.options| && Selected(q, answers) == Some(q.options[k].optionId)
  {
    match FindCorrect(q.options)
    case None => Throws
    case Some(c) =>
      if Selected(q, answers) == Some(c.optionId) then Correct else Incorrect(c.optionText)
  }

  /**
   * For a truthy selection the verdict and the score agree: the question is
   * shown as correct exactly when it scores.
   */
  lemma VerdictAgreesWithScore(q: Question, answers: map<int, Id>)
    requires Selected(q, answers).Some? ==> Truthy(Selected(q, answers).value)
    ensures VerdictOf(q, answers) == Correct <==> IsScored(q, answers)
  {
  }

  /**
   * As written, a correct option whose id is the falsy 0 is shown as correct
   * when picked and yet adds nothing to the score.
   */
  lemma FalsyCorrectIdIsNotScored()
    ensures var q := Question(1, [Choice(Num(0), true, "a"), Choice(Num(1), false, "b")]);
      var answers := map[1 := Num(0)];
      VerdictOf(q, answers) == Correct && !IsScored(q, answers)
      && CorrectCount([q], answers) == 0 && CorrectedCount([q], answers) == 1
  {
    var q := Question(1, [Choice(Num(0), true, "a"), Choice(Num(1), false, "b")]);
    var answers := map[1 := Num(0)];
    assert FindCorrect(q.options) == Some(q.options[0]);
    assert [q][..0] == [];
  }

  /** The intended score test: a selection exists and equals the first correct option's id. */
  predicate IsAnsweredCorrectly(q: Question, answers: map<int, Id>)
  {
    var correct := FindCorrect(q.options);
    correct.Some? && Selected(q, answers) == Some(correct.value.optionId)
  }

  /** The intended score: the number of questions answered correctly. */
  function CorrectedCount(questions: seq<Question>, answers: map<int, Id>): nat
  {
    Count(questions, q => IsAnsweredCorrectly(q, answers))
  }

  /** The intended score is exactly the number of questions whose verdict is Correct. */
  lemma CorrectedCountCountsCorrectVerdicts(questions: seq<Question>, answers: map<int, Id>)
    ensures CorrectedCount(questions, answers)
      == |set i | 0 <= i < |questions| && VerdictOf(questions[i], answers) == Correct|
  {
    CountIsCardinality(questions, q => IsAnsweredCorrectly(q, answers));
    assert IndicesWhere(questions, q => IsAnsweredCorrectly(q, answers))
      == set i | 0 <= i < |questions| && VerdictOf(questions[i], answers) == Correct;
  }

  /** When every correct option has a truthy id, the score as written is the intended one. */
  lemma ScoresAgreeOnTruthyIds(questions: seq<Question>, answers: map<int, Id>)
    requires forall i :: 0 <= i < |questions| && FindCorrect(questions[i].options).Some? ==>
      Truthy(FindCorrect(questions[i].options).value.optionId)
    ensures CorrectCount(questions, answers) == CorrectedCount(questions, answers)
  {
    CountCongruent(questions, q => IsScored(q, answers), q => IsAnsweredCorrectly(q, answers));
  }

  /** The exam view's state. */
  class TodayExamView {
    var exam: Option<Exam>
    var loading: bool
    var answers: map<int, Id>
    var submitted: bool

    /** The initial state: no exam, loading, no answers, not submitted. */
    constructor ()
      ensures exam == None && loading && answers == map[] && !submitted
    {
      exam, loading, answers, submitted := None, true, map[], false;
    }

    /** The fetch returned an exam: it is stored and loading ends. */
    method OnFetched(e: Exam)
      modifies this`exam, this`loading
      ensures exam == Some(e) && !loading
    {
      exam := Some(e);
      loading := false;
    }

    /** The fetch threw: the exam stays as it was (none) and loading ends. */
    method OnFetchFailed()
      modifies this`loading
      ensures !loading && exam == old(exam)
    {
      loading := false;
    }

    /** handleAnswer: record the option for the question; every other entry is kept. */
    method HandleAnswer(qid: int, optionId: Id)
      modifies this`answers
      ensures answers == old(answers)[qid := optionId]
      ensures qid in answers && answers[qid] == optionId
      ensures forall k :: k != qid ==> (k in answers <==> k in old(answers))
      ensures forall k :: k != qid && k in answers ==> answers[k] == old(answers)[k]
    {
      answers := answers[qid := optionId];
    }

    /**
     * A change of a question's radio group: the group is disabled once the
     * exam is submitted, so only before that does it reach handleAnswer.
     */
    method OnRadioChange(qid: int, optionId: Id)
      modifies this`answers
      ensures answers == if old(submitted) then old(answers) else old(answers)[qid := optionId]
    {
      if !submitted {
        HandleAnswer(qid, optionId);
      }
    }

    /** handleSubmit: without an exam nothing happens; otherwise the exam is submitted. */
    method HandleSubmit()
      modifies this`submitted
      ensures submitted == (old(submitted) || exam.Some?)
      ensures old(submitted) ==> submitted
    {
      if exam.None? {
        return;
      }
      submitted := true;
    }

    /** The score the view renders once the exam has loaded: at most the number of questions. */
    function Score(): (r: Option<nat>)
      reads this
      ensures r.Some? <==> !loading && exam.Some?
      ensures r.Some? ==> r.value <= |exam.value.questions|
      ensures r.Some? ==> r.value == |set i | 0 <= i < |exam.value.questions| && IsScored(exam.value.questions[i], answers)|
    {
      if loading || exam.None? then None
      else
        CorrectCountIsScoredQuestions(exam.value.questions, answers);
        Some(CorrectCount(exam.value.questions, answers))
    }

    /** The verdict under question `i`: shown only after submitting. */
    function Feedback(i: nat): (r: Option<Verdict>)
      reads this
      requires exam.Some? && i < |exam.value.questions|
      ensures r.Some? <==> submitted
      ensures r.Some? ==> (r.value == Correct <==>
        IsAnsweredCorrectly(exam.value.questions[i], answers))
    {
      if submitted then Some(VerdictOf(exam.value.questions[i], answers)) else None
    }
  }
}
